=== FILE: README.md ===
# Devshop Tycoon game rules in Dafny

A model of the game logic of Devshop Tycoon, a small browser idle game. It has two sides.

The **server** (`app.py`) keeps one player record: money, energy, max energy, experience, level, the one-time upgrades owned, the number of junior developers hired, and the time of the last update. Four requests change the record:

- running a contract spends energy, pays money and experience, and may raise the level;
- buying an item: coffee, the chair or faster-PC upgrade, or another junior developer at a geometric price;
- resetting the game;
- polling the state, which credits the passive income and stamps the record.

A contract or purchase that names an unknown id is refused before anything else (app.py:115-116, 151-152). Otherwise the request first credits the passive income the junior developers earned since the last update. A reset overwrites the record without crediting anything (app.py:198-210). Module `Server` in `server.dfy` models each request as a pure function from the record to an `Outcome`. An outcome is the committed record plus an `Accepted(snapshot)` or `Rejected(message)` reply.

The **client** (`static/js/game.js`) holds the last snapshot and the catalog, and decides which buttons are enabled. It disables every button while a request is in flight. It replaces the snapshot only when the server accepts a request. Module `Client` in `client.dfy` models the buttons abstractly as key, disabled flag and caption, with no document.

Two more files complete the model:

- `game.dfy` (module `Game`) holds what both sides share: the hard-coded catalog, the junior-developer price, and the snapshot and reply shapes.
- `agreement.dfy` (module `Agreement`) connects the sides. For a snapshot the server has just sent, it proves that a contract button is enabled exactly when the server would accept that contract. With the owned-upgrade test corrected (see Findings), the same holds for every store button. As written, an owned upgrade the money covers is offered again and then refused.

The price of the n-th junior developer is `floor(base * 1.15^n)`. It is modelled exactly as `base * 115^n / 100^n`, rounded down. The server (`math.pow`) and the page script (`Math.pow`) both compute `1.15^n` in binary floating point and truncate. Their prices can therefore differ from this model's, by more than one unit for large n. The two libraries need not round alike, so the two sides can also differ from each other.

## Model

| member | source | states |
|---|---|---|
| Game.Definitions | app.py:105-110 | The definitions endpoint serves exactly the server's contract and store tables. The JSON encoder sorts object keys, so the client renders the keys in alphabetical order: build_website, data_analysis, fix_bug, and coffee, dev_junior, ergonomic_chair, faster_pc. |
| Game.ContractRewardsBounded | app.py:14-18 | Every contract costs some energy and rewards at most 100 experience, the first level's threshold. |
| Game.PriceNonDecreasing | app.py:184-185 | Each extra junior developer costs at least as much as the previous one. |
| Game.PriceAtLeastBase | app.py:184-185 | No hire ever costs less than the base cost. |
| Game.PriceSamples | static/js/game.js:220-221 | Worked prices: base 10 after three hires costs 15, and the junior developer costs 500, 575 and 661 for the first three hires. |
| Server.FreshSatisfiesInv | app.py:29-40 | The column defaults of a new record satisfy the game invariant. |
| Server.TruncDiv | app.py:64 | Python `int()` of a quotient truncates toward zero: the result's magnitude is \|a\| / d rounded down, and its sign is the numerator's. |
| Server.Accrue | app.py:53-70 | Passive income changes only money and the timestamp. Money never decreases, even if the clock went back. For forward time, money rises by exactly floor(elapsed seconds · developers · 10). |
| Server.AccrueSameInstant | app.py:73-81 | Crediting income twice at the same instant credits it once, so the state dictionary's second accrual adds nothing. |
| Server.ViewDerivedFields | app.py:83-93 | In a reported snapshot, `xp_to_next_level` is level·100 and experience stays below it. `passive_income` is exactly what one more second of accrual credits. |
| Server.Respond | app.py:73-93 | A successful reply carries the snapshot of the committed record. At the instant of the last update it leaves that record unchanged. |
| Server.DoContract | app.py:112-146 | An unknown contract leaves the record untouched. Any other contract is accepted iff energy covers its cost. A refusal keeps only the income credit. The invariant (0 ≤ energy ≤ max, 0 ≤ xp < level·100, money ≥ 0, no duplicate upgrades) is preserved. |
| Server.LevelUpAtReportedThreshold | app.py:138-142 | An affordable contract is accepted, and it raises the level iff the experience it brings reaches the `xp_to_next_level` of the last snapshot. Otherwise the level stays. |
| Server.ContractEffect | app.py:128-143 | An accepted contract pays the reward (1.5 times, truncated, with the faster PC) and adds the experience. The level rises by at most one: exactly when experience reaches level·100, which spends that experience, raises max energy by 10 and refills energy. Otherwise energy drops by exactly the cost. |
| Server.BuyItem | app.py:148-196 | An unknown item leaves the record untouched. A refusal of a known item commits exactly the income credit. Upgrades grow only by appending a one-time upgrade not yet owned. The invariant is preserved, so money never goes negative. |
| Server.PurchaseDecision | app.py:162-192 | Each item is bought iff the credited money covers its price and, for an upgrade, it is not owned yet. The money check comes first: an owned upgrade is refused as already owned only when it is affordable. Coffee and a hire are only ever refused for lack of money. |
| Server.PurchaseEffect | app.py:162-194 | What an accepted purchase changes, and that it changes nothing else. Coffee refills energy. The chair adds 25 max energy. The PC is recorded. A junior developer costs the geometric price and adds one to the count. |
| Server.ResetGame | app.py:198-214 | Reset yields exactly a first visit's record, whatever the record held, and reports money 100 and energy 100. |
| Server.GetGameState | app.py:101-103 | The state poll commits exactly the income credit and the new stamp, never lowers money, and preserves the invariant. |
| Client.ContractButtonState | static/js/game.js:206-211 | A contract button is disabled iff energy < the contract's cost, so equal energy enables it. Buttons with unknown keys are left alone. |
| Client.JuniorPrice | static/js/game.js:219-221 | The displayed price exists iff the item has a base cost, and is never below it. |
| Client.StoreButtonState | static/js/game.js:214-249 | The junior-developer button shows the count and the freshly computed price, and is disabled iff unaffordable. An upgrade the owned test finds is disabled and marked purchased. Other priced items show their cost and are disabled iff unaffordable. Unknown keys and unpriced items are left exactly as they were. As written, the owned test never marks anything purchased. |
| Client.CheckButtonStates | static/js/game.js:202-250 | With no snapshot it does nothing. Otherwise every known button shows the snapshot's verdict, with keys and counts kept. Contract captions never change, and buttons the rules do not cover (unknown keys, unpriced items) are left exactly as they were. A contract button is disabled iff energy is below its cost. The junior-developer button shows the count and current price, and is disabled iff money is below that price. An owned upgrade is disabled and marked purchased. Any other priced item shows its cost and is disabled iff money is below it. |
| Client.CheckButtonStatesIdempotent | static/js/game.js:202-250 | Recomputing twice equals recomputing once, because a verdict does not depend on the button's previous state. |
| Client.OwnedUpgradeStaysDisabled | static/js/game.js:233-239 | When the owned test reads the item key, an owned upgrade stays disabled and marked purchased, whatever the money. |
| Client.AsWrittenNeverMarksPurchased | static/js/game.js:233-239 | As written, no recomputation ever marks a store button purchased. |
| Client.DisableAllButtons | static/js/game.js:252-257 | Every button's disabled flag becomes the given flag, except buttons marked purchased, which keep theirs. Keys and captions are unchanged. |
| Client.LogFeedback | static/js/game.js:259-261 | The new message comes first and every earlier message follows, in order. |
| Client.RenderStore | static/js/game.js:180-199 | One enabled button per catalog key, in order, captioned with the fixed cost or else the base cost. |
| Client.RenderContracts | static/js/game.js:160-177 | One enabled button per contract key, in catalog order, showing that contract's cost and rewards. |
| Client.LoadDefinitions | static/js/game.js:47-62 | A delivered catalog is adopted, and both lists are redrawn enabled, in its key order, with state and log kept. A failed load only logs an error. |
| Client.ServedCatalogButtons | static/js/game.js:160-199 | The server's catalog draws build_website, data_analysis, fix_bug and coffee, dev_junior, ergonomic_chair, faster_pc, each captioned from the catalog. |
| Client.Finish | static/js/game.js:83-85 | The clean-up step keeps every button (same count, same key at each position), and every contract button's caption. It leaves a page that one more recomputation would not change, and whose contract and store buttons all show the snapshot's verdict. |
| Client.DoContract | static/js/game.js:65-86 | The snapshot becomes the reply's iff the server accepted. Exactly one message is logged: the success message naming the contract on acceptance, the server's error on a refusal, a connection error on a transport failure or when the contract's name cannot be read. Every button and every contract caption is kept, and recomputation comes last, so each contract and store button shows the verdict of the snapshot held. |
| Client.BuyItem | static/js/game.js:89-114 | An empty id only logs an error and changes nothing else. Otherwise it behaves like a contract: the snapshot becomes the reply's iff the server accepted, the success message naming the item, the server's error or the purchase connection error is logged, every button and every contract caption is kept, and every button then shows the snapshot's verdict. |
| Client.ResetGame | static/js/game.js:117-138 | A declined confirmation changes nothing. An accepted reset adopts the new snapshot, re-renders the store with one button per catalog key in catalog order, and logs success. A failed one keeps the snapshot and every button, and logs why. A confirmed reset always keeps the contract buttons and their captions, and afterwards every button shows the snapshot's verdict. |
| Client.BlankSnapshotLeavesButtonsDisabled | static/js/game.js:203 | Before any snapshot has arrived, a contract, a purchase or a confirmed reset that is refused or not delivered leaves every button that is not marked purchased disabled. |
| Client.BarWidth | static/js/game.js:149-150 | A bar width is defined iff the denominator is non-zero, and lies in [0, 100] when 0 ≤ part ≤ whole. |
| Agreement.ContractButtonMatchesServer | static/js/game.js:206-211 | A contract button is disabled iff the server would refuse that contract at any later instant. |
| Agreement.JuniorPriceMatchesServer | static/js/game.js:219-229 | The client shows the junior-developer price the server charges. The button is disabled iff the server would refuse the hire at the snapshot's instant. |
| Agreement.StoreButtonMatchesServer | static/js/game.js:214-249 | With the owned test reading the item key, every store button is disabled iff the server would refuse the purchase at the snapshot's instant. |
| Agreement.EnabledPurchaseSucceedsLater | app.py:159-192 | A purchase the corrected client offers still goes through at any later instant, because waiting only adds money. |
| Agreement.AsWrittenOwnedUpgradeOfferedAgain | static/js/game.js:233-247 | As written, an owned upgrade that the money covers is offered again, and the server refuses it as already owned. |
| Agreement.OwnedFasterPcWitness | static/js/game.js:234 | A concrete well-formed record: it owns the faster PC and holds 1000 money; the button is enabled and the purchase is refused. |
| Agreement.BarsWithinRange | static/js/game.js:149-150 | For any snapshot of a record that keeps the invariant, the energy bar lies in [0, 100] % and the experience bar in [0, 100) %. |
| Agreement.ClientAdoptsServerRecord | static/js/game.js:73-80 | After a contract request the server answered, the client holds the snapshot of the server's committed record when it accepted. When it refused, the client keeps its old snapshot and logs the server's message. |

## Left out

- Flask routing, JSON request parsing and `jsonify`: a request is its id argument, and a reply is `Accepted`/`Rejected`. The 400 status is implied by `Rejected`.
- SQLAlchemy persistence and commits: the record is a value. Creating the record on a first visit is reduced to its column defaults (`Server.Fresh`). The upgrades column's JSON text is a sequence of ids.
- The clock: each request takes one timestamp `now` as a parameter, in microseconds, the clock's resolution. The server reads the clock again when building the reply; the model reuses `now`, and `Server.AccrueSameInstant` shows that the second accrual then adds nothing.
- Floating point:
  - `1.15^n` is exact (see above).
  - The 1.5 payout is `reward * 3 / 2`, which is exact for the catalog's rewards.
  - The passive-income product uses exact microseconds.
  - Bar widths are `real`.
- SQLite's 64-bit integer columns: integers here are unbounded.
- `fetchGameState`, `initialLoad`, and the polling timer and its cancellation: network and timing. `fetchDefinitions` is modelled as `Client.LoadDefinitions`, with the fetch itself reduced to an optional catalog. The race in which a poll reply and an action reply both write the snapshot is also out, being concurrency.
- The HUD text written by `updateUI`: only its bar widths and its final button recomputation are modelled.
- `confirm()`: a boolean argument.
- Click-handler wiring and `console.error`.
- Captions are abstract. The "(Comprado)" test of `disableAllButtons` is read as "the caption is `Purchased`", which assumes no catalog name contains that text. The reset button is assumed not to be one of the `.action-button` buttons.
- The client's contract and purchase requests treat any exception as `ConnectionFailed`, including a reply body that is not JSON. One exception comes after the snapshot is replaced: reading the name of an id missing from the catalog. That path is modelled as "snapshot replaced, connection error logged".

## Findings

| source | as written | input that shows it | evidently intended | confidence | as-written member | corrected member |
|---|---|---|---|---|---|---|
| static/js/game.js:234 | The owned-upgrade test reads `button.dataset.id`, but store buttons carry only `data-item-id` (line 187). The test therefore never fires, and an owned upgrade's button is enabled whenever the money covers its cost. | A record owning `faster_pc` with money 1000: the button is enabled, and the server replies "Ya tienes este item". | Test `button.dataset.itemId`, so that an owned upgrade is disabled and marked purchased for good. | high; not executed | Agreement.AsWrittenOwnedUpgradeOfferedAgain | Agreement.StoreButtonMatchesServer |

The client functions take the owned test's attribute as a parameter (`Client.OwnedLookup`). `ByDataId` is the code as written; `ByItemId` is the intended code, and the cross-side lemmas are proved for it.

Two more places where the code's behaviour differs from its intended design, not shown as bugs:

- The clean-up step does not re-enable buttons when no snapshot has arrived yet (`Client.BlankSnapshotLeavesButtonsDisabled`).
- Because the money check comes before the ownership check, an owned upgrade the player cannot afford is refused for lack of money rather than as already owned (`Server.PurchaseDecision`).

=== FILE: agreement.dfy ===
/**
 How the client's button verdicts relate to the server's rules, for a snapshot
 the server has just sent (`View(p)` of the committed record `p`) and the
 catalog the definitions endpoint serves. An enabled button should mean the
 request would go through, a disabled one that it would be refused.
 */
module Agreement {
  import opened Game
  import Server
  import opened Client

  /** A contract button is enabled exactly when the server would run that
      contract, at any later instant: passive income never changes energy. */
  lemma ContractButtonMatchesServer(p: Server.Player, id: string, b: Button, now: int)
    requires id in Contracts && b.key == id
    ensures ContractButtonState(Definitions(), Server.View(p), b).disabled
            <==> Server.DoContract(p, id, now).reply.Rejected?
  {
  }

  /** The price the client shows for the next junior developer is the price the
      server charges for it, and the button is enabled exactly when the server
      would accept the hire at the snapshot's instant. */
  lemma JuniorPriceMatchesServer(p: Server.Player, b: Button, t: int, lookup: OwnedLookup)
    requires p.lastUpdated == Some(t) && b.key == DevJunior
    ensures var shown := StoreButtonState(Definitions(), Server.View(p), b, lookup);
            var r := Server.BuyItem(p, DevJunior, t);
            && shown.caption == Staff(p.juniorDevs, Some(Price(500, p.juniorDevs)))
            && (shown.disabled <==> r.reply.Rejected?)
            && (r.reply.Accepted? ==> r.record.money == p.money - Price(500, p.juniorDevs))
  {
  }

  /** With the owned test reading `data-item-id`, every store button is enabled
      exactly when the server would sell that item at the snapshot's instant. */
  lemma StoreButtonMatchesServer(p: Server.Player, b: Button, t: int)
    requires Server.Inv(p) && p.lastUpdated == Some(t) && b.key in StoreItems
    ensures StoreButtonState(Definitions(), Server.View(p), b, ByItemId).disabled
            <==> Server.BuyItem(p, b.key, t).reply.Rejected?
  {
  }

  /** An enabled store button stays a safe promise later on: waiting only adds
      passive income, so the purchase still goes through. */
  lemma EnabledPurchaseSucceedsLater(p: Server.Player, b: Button, t: int, now: int)
    requires Server.Inv(p) && p.lastUpdated == Some(t) && t <= now && b.key in StoreItems
    requires !StoreButtonState(Definitions(), Server.View(p), b, ByItemId).disabled
    ensures Server.BuyItem(p, b.key, now).reply.Accepted?
  {
  }

  /** As the script is written, an upgrade the player already owns is offered
      again whenever the money covers its cost, and the server then refuses it. */
  lemma AsWrittenOwnedUpgradeOfferedAgain(p: Server.Player, b: Button, t: int)
    requires IsUpgrade(b.key) && b.key in p.upgrades && p.lastUpdated == Some(t)
    requires p.money >= StoreItems[b.key].cost.value
    ensures var shown := StoreButtonState(Definitions(), Server.View(p), b, ByDataId);
            && !shown.disabled && shown.caption == Offer(StoreItems[b.key].cost)
            && Server.BuyItem(p, b.key, t).reply == Rejected(Server.AlreadyOwned)
  {
  }

  /** A concrete instance: a player holding the faster PC and 1000 money. */
  lemma OwnedFasterPcWitness()
    ensures var p := Server.Player(1000, 100, 100, 0, 1, [FasterPc], 0, Some(0));
            var shown := StoreButtonState(Definitions(), Server.View(p), Button(FasterPc, true, Purchased), ByDataId);
            && Server.Inv(p)
            && !shown.disabled
            && Server.BuyItem(p, FasterPc, 0).reply == Rejected(Server.AlreadyOwned)
  {
  }

  /** Both bars of any snapshot of a well-formed record are proper percentages. */
  lemma BarsWithinRange(p: Server.Player)
    requires Server.Inv(p)
    ensures var v := Server.View(p);
            && EnergyBar(v).Some? && 0.0 <= EnergyBar(v).value <= 100.0
            && XpBar(v).Some? && 0.0 <= XpBar(v).value < 100.0
  {
  }

  /** A client contract request answered by the server: the snapshot becomes the
      server's committed record in full when it accepts, and stays as it was,
      with the server's message logged, when it refuses. */
  lemma ClientAdoptsServerRecord(pg: Page, p: Server.Player, id: string, now: int, lookup: OwnedLookup)
    ensures var o := Server.DoContract(p, id, now);
            var r := Client.DoContract(pg, id, Delivered(o.reply), lookup);
            && (o.reply.Accepted? ==> r.state == Loaded(Server.View(o.record)))
            && (o.reply.Rejected? ==> r.state == pg.state && r.log[0] == "Error: " + o.reply.error)
  {
  }
}

=== FILE: client.dfy ===
/**
 The browser client's control logic, without the document: which buttons are
 enabled for the current player snapshot and catalog, the bulk disable used
 while a request is in flight, the feedback log, and when an action replaces
 the snapshot.
 */
module Client {
  import opened Game

  /** What a button's text shows. `Job`: a contract's name, energy cost and
      rewards. `Offer`: a store item's name, price and effect. `Staff`: the
      hired count and the current price of the stackable item. `Purchased`: an
      owned upgrade's "(Comprado)" text. A missing value is the `undefined` or
      `NaN` the script would print. */
  datatype Label = Job(terms: Option<ContractDef>) | Offer(price: Option<nat>) | Staff(hired: nat, price: Option<nat>) | Purchased

  /** A button, identified by the catalog key it was rendered for: `data-id` on
      contract buttons, `data-item-id` on store buttons. */
  datatype Button = Button(key: string, disabled: bool, caption: Label)

  datatype Ui = Ui(contracts: seq<Button>, store: seq<Button>)

  /** The player snapshot: the empty object the page starts with, or the last one the server sent. */
  datatype Snapshot = Blank | Loaded(view: StateView)

  datatype Page = Page(defs: Defs, state: Snapshot, ui: Ui, log: seq<string>)

  /** Which attribute the owned-upgrade test reads: the script reads `data-id`,
      which store buttons do not carry; `data-item-id` is the one they do. */
  datatype OwnedLookup = ByDataId | ByItemId

  /** How a request settled: a reply (status 200 or 400), or no usable reply at all. */
  datatype Response = Delivered(reply: Reply) | ConnectionFailed

  const InvalidPurchase := "Error: Intento de compra inválido."
  const ContractConnectionError := "Error de conexión al hacer contrato."
  const PurchaseConnectionError := "Error de conexión al comprar."
  const ResetConnectionError := "Error de conexión al reiniciar."
  const ResetRefused := "Error: No se pudo reiniciar el juego."
  const ResetDone := "¡Juego reiniciado! Has vuelto a empezar."
  const DefinitionsError := "Error cargando definiciones del juego."

  /** Two button lists hold the same buttons: same length, same key at every position. */
  predicate SameKeys(a: seq<Button>, b: seq<Button>) {
    |a| == |b| && forall i :: 0 <= i < |a| ==> a[i].key == b[i].key
  }

  /** Two button lists show the same buttons: same length, and the same key and
      caption at every position. */
  predicate SameFaces(a: seq<Button>, b: seq<Button>) {
    |a| == |b| && forall i :: 0 <= i < |a| ==> a[i].key == b[i].key && a[i].caption == b[i].caption
  }

  /** Every button not marked purchased is disabled, as while a request is in flight. */
  predicate Locked(ui: Ui) {
    && (forall i :: 0 <= i < |ui.contracts| && !ui.contracts[i].caption.Purchased? ==> ui.contracts[i].disabled)
    && (forall i :: 0 <= i < |ui.store| && !ui.store[i].caption.Purchased? ==> ui.store[i].disabled)
  }

  function MapButtons(f: Button -> Button, bs: seq<Button>): (r: seq<Button>)
    ensures |r| == |bs|
    ensures forall i :: 0 <= i < |bs| ==> r[i] == f(bs[i])
  {
    if bs == [] then [] else [f(bs[0])] + MapButtons(f, bs[1..])
  }

  /** A contract button is disabled exactly when the energy does not cover the
      contract's cost; equal energy enables it. */
  function ContractButtonState(defs: Defs, v: StateView, b: Button): (r: Button)
    ensures r.key == b.key && r.caption == b.caption
    ensures b.key in defs.contracts ==> (r.disabled <==> v.energy < defs.contracts[b.key].energyCost)
    ensures b.key !in defs.contracts ==> r == b
  {
    if b.key in defs.contracts then b.(disabled := v.energy < defs.contracts[b.key].energyCost) else b
  }

  /** The key the owned-upgrade test looks up: nothing, when it reads the
      attribute store buttons lack. */
  function OwnedKey(b: Button, lookup: OwnedLookup): Option<string> {
    match lookup
    case ByDataId => None
    case ByItemId => Some(b.key)
  }

  predicate Includes(upgrades: seq<string>, k: Option<string>) {
    k.Some? && k.value in upgrades
  }

  /** JavaScript truthiness of an optional number. */
  predicate Truthy(n: Option<nat>) {
    n.Some? && n.value != 0
  }

  /** The stackable item's current price, recomputed from the hired count; no
      base cost makes it `NaN`. */
  function JuniorPrice(item: StoreItemDef, hired: nat): (r: Option<nat>)
    ensures r.Some? <==> item.baseCost.Some?
    ensures r.Some? ==> item.baseCost.value <= r.value
  {
    match item.baseCost
    case Some(base) => PriceAtLeastBase(base, hired); Some(Price(base, hired))
    case None => None
  }

  /** A store button: the stackable item shows its hired count and current
      price and is disabled when unaffordable (never by `NaN`); an owned
      upgrade, if the owned test finds it, is disabled for good and marked
      purchased; any other item with a cost is disabled when unaffordable. */
  function StoreButtonState(defs: Defs, v: StateView, b: Button, lookup: OwnedLookup): (r: Button)
    ensures r.key == b.key
    ensures b.key !in defs.items ==> r == b
    ensures b.key in defs.items && b.key == DevJunior ==>
      var price := JuniorPrice(defs.items[b.key], v.juniorDevs);
      r.caption == Staff(v.juniorDevs, price) && (r.disabled <==> price.Some? && v.money < price.value)
    ensures b.key in defs.items && b.key != DevJunior && Includes(v.upgrades, OwnedKey(b, lookup)) ==>
      r.disabled && r.caption == Purchased
    ensures b.key in defs.items && b.key != DevJunior && !Includes(v.upgrades, OwnedKey(b, lookup))
            && Truthy(defs.items[b.key].cost) ==>
      r.caption == Offer(defs.items[b.key].cost) && (r.disabled <==> v.money < defs.items[b.key].cost.value)
    ensures StoreLeftAlone(defs, v, b, lookup) ==> r == b
    ensures lookup == ByDataId ==> (r.caption.Purchased? ==> b.caption.Purchased?)
    ensures StoreVerdict(defs, v, r, lookup)
  {
    if b.key !in defs.items then b
    else
      var item := defs.items[b.key];
      if b.key == DevJunior then
        var price := JuniorPrice(item, v.juniorDevs);
        b.(caption := Staff(v.juniorDevs, price), disabled := price.Some? && v.money < price.value)
      else if Includes(v.upgrades, OwnedKey(b, lookup)) then
        b.(disabled := true, caption := Purchased)
      else if Truthy(item.cost) then
        b.(caption := Offer(item.cost), disabled := v.money < item.cost.value)
      else b
  }

  /** The store buttons the recomputation does not touch: an unknown key, or an
      item that is neither the stackable one, nor found owned, nor priced. */
  predicate StoreLeftAlone(defs: Defs, v: StateView, b: Button, lookup: OwnedLookup) {
    || b.key !in defs.items
    || (b.key != DevJunior && !Includes(v.upgrades, OwnedKey(b, lookup)) && !Truthy(defs.items[b.key].cost))
  }

  /** Every contract button whose contract is known shows the snapshot's verdict. */
  predicate ContractsCurrent(pg: Page) {
    pg.state.Loaded? ==>
      forall i :: 0 <= i < |pg.ui.contracts| && pg.ui.contracts[i].key in pg.defs.contracts ==>
        (pg.ui.contracts[i].disabled <==> pg.state.view.energy < pg.defs.contracts[pg.ui.contracts[i].key].energyCost)
  }

  /** A store button shows the snapshot's verdict: the stackable item's button
      carries the current price and is disabled exactly when it is unaffordable;
      an upgrade the owned test finds is disabled and marked purchased; any
      other item with a cost is disabled exactly when it is unaffordable. */
  predicate StoreVerdict(defs: Defs, v: StateView, b: Button, lookup: OwnedLookup) {
    b.key in defs.items ==>
      && (b.key == DevJunior && defs.items[b.key].baseCost.Some? ==>
            var price := Price(defs.items[b.key].baseCost.value, v.juniorDevs);
            b.caption == Staff(v.juniorDevs, Some(price)) && (b.disabled <==> v.money < price))
      && (b.key != DevJunior && Includes(v.upgrades, OwnedKey(b, lookup)) ==>
            b.disabled && b.caption == Purchased)
      && (b.key != DevJunior && !Includes(v.upgrades, OwnedKey(b, lookup)) && Truthy(defs.items[b.key].cost) ==>
            b.caption == Offer(defs.items[b.key].cost) && (b.disabled <==> v.money < defs.items[b.key].cost.value))
  }

  /** Every store button shows the snapshot's verdict. */
  predicate StoreCurrent(pg: Page, lookup: OwnedLookup) {
    pg.state.Loaded? ==>
      forall i :: 0 <= i < |pg.ui.store| ==> StoreVerdict(pg.defs, pg.state.view, pg.ui.store[i], lookup)
  }

  /** Recomputes every button from the snapshot; does nothing before a snapshot has arrived. */
  function CheckButtonStates(pg: Page, lookup: OwnedLookup): (r: Page)
    ensures pg.state.Blank? ==> r == pg
    ensures r.defs == pg.defs && r.state == pg.state && r.log == pg.log
    ensures SameFaces(r.ui.contracts, pg.ui.contracts) && SameKeys(r.ui.store, pg.ui.store)
    ensures forall i :: 0 <= i < |pg.ui.contracts| && pg.ui.contracts[i].key !in pg.defs.contracts ==>
      r.ui.contracts[i] == pg.ui.contracts[i]
    ensures pg.state.Loaded? ==>
      forall i :: 0 <= i < |pg.ui.store| && StoreLeftAlone(pg.defs, pg.state.view, pg.ui.store[i], lookup) ==>
        r.ui.store[i] == pg.ui.store[i]
    ensures ContractsCurrent(r) && StoreCurrent(r, lookup)
  {
    match pg.state
    case Blank => pg
    case Loaded(v) =>
      pg.(ui := Ui(MapButtons(b => ContractButtonState(pg.defs, v, b), pg.ui.contracts),
                   MapButtons(b => StoreButtonState(pg.defs, v, b, lookup), pg.ui.store)))
  }

  /** Recomputing twice is recomputing once: the verdict depends on the
      snapshot and the button's key, not on the button's previous state. */
  lemma CheckButtonStatesIdempotent(pg: Page, lookup: OwnedLookup)
    ensures CheckButtonStates(CheckButtonStates(pg, lookup), lookup) == CheckButtonStates(pg, lookup)
  {
  }

  /** With the owned test reading `data-item-id`, an owned upgrade stays
      disabled and marked purchased on every recomputation, whatever the money. */
  lemma OwnedUpgradeStaysDisabled(defs: Defs, v: StateView, b: Button)
    requires b.key in defs.items && b.key != DevJunior && b.key in v.upgrades
    ensures StoreButtonState(defs, v, b, ByItemId).disabled
    ensures StoreButtonState(defs, v, b, ByItemId).caption == Purchased
    ensures StoreButtonState(defs, v.(money := v.money + 1), b, ByItemId)
            == StoreButtonState(defs, v, b, ByItemId)
  {
  }

  /** As the script is written, the owned test never fires: no recomputation
      ever marks a button purchased. */
  lemma AsWrittenNeverMarksPurchased(pg: Page)
    requires forall i :: 0 <= i < |pg.ui.store| ==> !pg.ui.store[i].caption.Purchased?
    ensures var r := CheckButtonStates(pg, ByDataId);
            forall i :: 0 <= i < |r.ui.store| ==> !r.ui.store[i].caption.Purchased?
  {
  }

  function DisableButton(b: Button, flag: bool): Button {
    if b.caption.Purchased? then b else b.(disabled := flag)
  }

  /** Sets every button's disabled flag, skipping buttons marked purchased. */
  function DisableAllButtons(ui: Ui, flag: bool): (r: Ui)
    ensures |r.contracts| == |ui.contracts| && |r.store| == |ui.store|
    ensures forall i :: 0 <= i < |ui.contracts| ==>
      r.contracts[i].key == ui.contracts[i].key && r.contracts[i].caption == ui.contracts[i].caption
      && r.contracts[i].disabled == (if ui.contracts[i].caption.Purchased? then ui.contracts[i].disabled else flag)
    ensures forall i :: 0 <= i < |ui.store| ==>
      r.store[i].key == ui.store[i].key && r.store[i].caption == ui.store[i].caption
      && r.store[i].disabled == (if ui.store[i].caption.Purchased? then ui.store[i].disabled else flag)
  {
    Ui(MapButtons(b => DisableButton(b, flag), ui.contracts), MapButtons(b => DisableButton(b, flag), ui.store))
  }

  /** Prepends a message: the newest entry comes first and nothing is dropped. */
  function LogFeedback(log: seq<string>, msg: string): (r: seq<string>)
    ensures |r| == |log| + 1 && r[0] == msg && r[1..] == log
  {
    [msg] + log
  }

  function InitialPrice(item: StoreItemDef): Option<nat> {
    if Truthy(item.cost) then item.cost else item.baseCost
  }

  /** The freshly rendered store: one enabled button per catalog key, in catalog
      order, labelled with the fixed cost or else the base cost. */
  function RenderStore(defs: Defs): (r: seq<Button>)
    ensures |r| == |defs.itemOrder|
    ensures forall i :: 0 <= i < |r| ==> r[i].key == defs.itemOrder[i] && !r[i].disabled
    ensures forall i :: 0 <= i < |r| && r[i].key in defs.items ==>
      r[i].caption == Offer(InitialPrice(defs.items[r[i].key]))
  {
    seq(|defs.itemOrder|, i requires 0 <= i < |defs.itemOrder| =>
      var k := defs.itemOrder[i];
      Button(k, false, Offer(if k in defs.items then InitialPrice(defs.items[k]) else None)))
  }

  /** The freshly rendered contract list: one enabled button per contract, in
      catalog order, showing the contract's cost and rewards. */
  function RenderContracts(defs: Defs): (r: seq<Button>)
    ensures |r| == |defs.contractOrder|
    ensures forall i :: 0 <= i < |r| ==> r[i].key == defs.contractOrder[i] && !r[i].disabled
    ensures forall i :: 0 <= i < |r| && r[i].key in defs.contracts ==>
      r[i].caption == Job(Some(defs.contracts[r[i].key]))
  {
    seq(|defs.contractOrder|, i requires 0 <= i < |defs.contractOrder| =>
      var k := defs.contractOrder[i];
      Button(k, false, Job(if k in defs.contracts then Some(defs.contracts[k]) else None)))
  }

  /** Loads the catalog. When it arrives, its tables are adopted and both lists
      are drawn afresh, every button enabled, in the served key order; the
      buttons are not recomputed until the next snapshot. When it does not,
      only an error is logged. */
  function LoadDefinitions(pg: Page, served: Option<Defs>): (r: Page)
    ensures r.state == pg.state
    ensures served.None? ==> r == pg.(log := [DefinitionsError] + pg.log)
    ensures served.Some? ==>
      && r.defs == served.value && r.log == pg.log
      && |r.ui.contracts| == |served.value.contractOrder| && |r.ui.store| == |served.value.itemOrder|
      && (forall i :: 0 <= i < |r.ui.contracts| ==>
            r.ui.contracts[i].key == served.value.contractOrder[i] && !r.ui.contracts[i].disabled)
      && (forall i :: 0 <= i < |r.ui.store| ==>
            r.ui.store[i].key == served.value.itemOrder[i] && !r.ui.store[i].disabled)
  {
    match served
    case None => Log(pg, DefinitionsError)
    case Some(d) => pg.(defs := d, ui := Ui(RenderContracts(d), RenderStore(d)))
  }

  /** The catalog the server serves draws three contract buttons and four store
      buttons in sorted key order; the stackable item first shows its base cost. */
  lemma ServedCatalogButtons(pg: Page)
    ensures var r := LoadDefinitions(pg, Some(Definitions()));
            && |r.ui.contracts| == 3 && |r.ui.store| == 4
            && r.ui.contracts[0].key == BuildWebsite && r.ui.contracts[1].key == DataAnalysis
            && r.ui.contracts[2].key == FixBug
            && r.ui.contracts[2].caption == Job(Some(ContractDef("Corregir un Bug", 10, 50, 10)))
            && r.ui.store[0].key == Coffee && r.ui.store[1].key == DevJunior
            && r.ui.store[2].key == Chair && r.ui.store[3].key == FasterPc
            && r.ui.store[0].caption == Offer(Some(25)) && r.ui.store[1].caption == Offer(Some(500))
  {
  }

  function Log(pg: Page, msg: string): Page {
    pg.(log := LogFeedback(pg.log, msg))
  }

  /** The request is in flight: every button not marked purchased is disabled. */
  function Busy(pg: Page): Page {
    pg.(ui := DisableAllButtons(pg.ui, true))
  }

  /** The clean-up step every settled action ends with. */
  function Finish(pg: Page, lookup: OwnedLookup): (r: Page)
    ensures CheckButtonStates(r, lookup) == r
    ensures r.defs == pg.defs && r.state == pg.state && r.log == pg.log
    ensures SameFaces(r.ui.contracts, pg.ui.contracts) && SameKeys(r.ui.store, pg.ui.store)
    ensures ContractsCurrent(r) && StoreCurrent(r, lookup)
  {
    CheckButtonStatesIdempotent(pg, lookup);
    CheckButtonStates(pg, lookup)
  }

  /** Runs a contract. The snapshot is replaced by the reply's exactly when the
      server accepted; one message is logged; recomputation comes last. */
  function DoContract(pg: Page, id: string, resp: Response, lookup: OwnedLookup): (r: Page)
    ensures resp.Delivered? && resp.reply.Accepted? ==> r.state == Loaded(resp.reply.newState)
    ensures !(resp.Delivered? && resp.reply.Accepted?) ==> r.state == pg.state
    ensures r.defs == pg.defs
    ensures |r.log| == |pg.log| + 1 && r.log[1..] == pg.log
    ensures resp.Delivered? && resp.reply.Rejected? ==> r.log[0] == "Error: " + resp.reply.error
    ensures resp.ConnectionFailed? ==> r.log[0] == ContractConnectionError
    ensures resp.Delivered? && resp.reply.Accepted? ==>
      r.log[0] == (if id in pg.defs.contracts then "¡Contrato \"" + pg.defs.contracts[id].name + "\" completado!"
                   else ContractConnectionError)
    ensures SameFaces(r.ui.contracts, pg.ui.contracts) && SameKeys(r.ui.store, pg.ui.store)
    ensures CheckButtonStates(r, lookup) == r && ContractsCurrent(r) && StoreCurrent(r, lookup)
  {
    var busy := Busy(pg);
    var settled :=
      match resp
      case ConnectionFailed => Log(busy, ContractConnectionError)
      case Delivered(Rejected(e)) => Log(busy, "Error: " + e)
      case Delivered(Accepted(v)) =>
        var shown := CheckButtonStates(busy.(state := Loaded(v)), lookup);
        // Reading the name of a contract missing from the catalog throws, and the catch logs a connection error.
        if id in shown.defs.contracts then Log(shown, "¡Contrato \"" + shown.defs.contracts[id].name + "\" completado!")
        else Log(shown, ContractConnectionError);
    Finish(settled, lookup)
  }

  /** Buys a store item. An empty id is refused before anything else: only the
      log changes. Otherwise as for a contract. */
  function BuyItem(pg: Page, id: string, resp: Response, lookup: OwnedLookup): (r: Page)
    ensures id == "" ==> r == pg.(log := [InvalidPurchase] + pg.log)
    ensures id != "" && resp.Delivered? && resp.reply.Accepted? ==> r.state == Loaded(resp.reply.newState)
    ensures !(id != "" && resp.Delivered? && resp.reply.Accepted?) ==> r.state == pg.state
    ensures r.defs == pg.defs
    ensures |r.log| == |pg.log| + 1 && r.log[1..] == pg.log
    ensures id != "" && resp.Delivered? && resp.reply.Rejected? ==> r.log[0] == "Error: " + resp.reply.error
    ensures id != "" && resp.ConnectionFailed? ==> r.log[0] == PurchaseConnectionError
    ensures id != "" && resp.Delivered? && resp.reply.Accepted? ==>
      r.log[0] == (if id in pg.defs.items then "¡Compraste \"" + pg.defs.items[id].name + "\"!"
                   else PurchaseConnectionError)
    ensures id != "" ==> SameFaces(r.ui.contracts, pg.ui.contracts) && SameKeys(r.ui.store, pg.ui.store)
    ensures id != "" ==> CheckButtonStates(r, lookup) == r && ContractsCurrent(r) && StoreCurrent(r, lookup)
  {
    if id == "" then Log(pg, InvalidPurchase)
    else
      var busy := Busy(pg);
      var settled :=
        match resp
        case ConnectionFailed => Log(busy, PurchaseConnectionError)
        case Delivered(Rejected(e)) => Log(busy, "Error: " + e)
        case Delivered(Accepted(v)) =>
          var shown := CheckButtonStates(busy.(state := Loaded(v)), lookup);
          if id in shown.defs.items then Log(shown, "¡Compraste \"" + shown.defs.items[id].name + "\"!")
          else Log(shown, PurchaseConnectionError);
      Finish(settled, lookup)
  }

  /** Resets the game after the player confirms; declining changes nothing. On
      success the store is rendered afresh before the snapshot is shown. */
  function ResetGame(pg: Page, confirmed: bool, resp: Response, lookup: OwnedLookup): (r: Page)
    ensures !confirmed ==> r == pg
    ensures confirmed && resp.Delivered? && resp.reply.Accepted? ==>
      r.state == Loaded(resp.reply.newState) && r.log == [ResetDone] + pg.log
      && |r.ui.store| == |pg.defs.itemOrder|
      && (forall i :: 0 <= i < |r.ui.store| ==> r.ui.store[i].key == pg.defs.itemOrder[i])
    ensures confirmed && !(resp.Delivered? && resp.reply.Accepted?) ==>
      r.state == pg.state && |r.log| == |pg.log| + 1
      && r.log[0] == (if resp.ConnectionFailed? then ResetConnectionError else ResetRefused)
      && SameKeys(r.ui.store, pg.ui.store)
    ensures confirmed ==> SameFaces(r.ui.contracts, pg.ui.contracts)
    ensures confirmed ==> CheckButtonStates(r, lookup) == r && ContractsCurrent(r) && StoreCurrent(r, lookup)
  {
    if !confirmed then pg
    else
      var busy := Busy(pg);
      var settled :=
        match resp
        case ConnectionFailed => Log(busy, ResetConnectionError)
        case Delivered(Rejected(_)) => Log(busy, ResetRefused)
        case Delivered(Accepted(v)) =>
          var rendered := busy.(state := Loaded(v), ui := busy.ui.(store := RenderStore(busy.defs)));
          Log(CheckButtonStates(rendered, lookup), ResetDone);
      Finish(settled, lookup)
  }

  /** Without a snapshot the clean-up step is a no-op, so after any action that
      fails (refused or not delivered) every button not marked purchased stays
      disabled; the actions keep the page's buttons, so these are all of them. */
  lemma BlankSnapshotLeavesButtonsDisabled(pg: Page, id: string, resp: Response, lookup: OwnedLookup)
    requires pg.state.Blank? && !(resp.Delivered? && resp.reply.Accepted?)
    ensures Locked(DoContract(pg, id, resp, lookup).ui)
    ensures id != "" ==> Locked(BuyItem(pg, id, resp, lookup).ui)
    ensures Locked(ResetGame(pg, true, resp, lookup).ui)
  {
  }

  /** A bar's width in percent; `None` stands for the `NaN` or infinity of a zero denominator. */
  function BarWidth(part: int, whole: int): (r: Option<real>)
    ensures r.Some? <==> whole != 0
    ensures whole > 0 && 0 <= part <= whole ==> 0.0 <= r.value <= 100.0
    ensures whole > 0 && 0 <= part < whole ==> r.value < 100.0
  {
    if whole == 0 then None else Some(part as real / whole as real * 100.0)
  }

  function EnergyBar(v: StateView): Option<real> {
    BarWidth(v.energy, v.maxEnergy)
  }

  function XpBar(v: StateView): Option<real> {
    BarWidth(v.xp, v.xpToNextLevel)
  }
}

=== FILE: game.dfy ===
/**
 The data shared by the game server and the browser client: the hard-coded
 catalog of contracts and store items (served unchanged to the client as its
 definitions), the geometric price of the stackable store item, and the shape
 of the player snapshot and of a mutating request's reply.
 */
module Game {

  datatype Option<+T> = None | Some(value: T)

  /** A contract: costs energy, pays money and experience. */
  datatype ContractDef = ContractDef(name: string, energyCost: nat, moneyReward: nat, xpReward: nat)

  /** A store item carries either a fixed `cost` or a `baseCost` for geometric
      pricing; the JSON object simply lacks the other key, hence the options. */
  datatype StoreItemDef = StoreItemDef(name: string, cost: Option<nat>, baseCost: Option<nat>, effect: string)

  const FixBug := "fix_bug"
  const BuildWebsite := "build_website"
  const DataAnalysis := "data_analysis"

  const Coffee := "coffee"
  const Chair := "ergonomic_chair"
  const FasterPc := "faster_pc"
  const DevJunior := "dev_junior"

  const Contracts: map<string, ContractDef> := map[
    FixBug := ContractDef("Corregir un Bug", 10, 50, 10),
    BuildWebsite := ContractDef("Crear Web Simple", 30, 200, 50),
    DataAnalysis := ContractDef("Analizar Datos", 50, 450, 100)
  ]

  const StoreItems: map<string, StoreItemDef> := map[
    Coffee := StoreItemDef("Café", Some(25), None, "Restaura toda la energía"),
    Chair := StoreItemDef("Silla Ergonómica", Some(300), None, "+25 Energía Máxima"),
    FasterPc := StoreItemDef("PC Más Rápida", Some(1000), None, "+50% Dinero por contrato"),
    DevJunior := StoreItemDef("Contratar Dev Jr.", None, Some(500), "Gana $10/seg (automático)")
  ]

  /** The one-time upgrades: bought at most once, remembered in the player's upgrade list. */
  predicate IsUpgrade(id: string) {
    id == Chair || id == FasterPc
  }

  /** The catalog as the client holds it: two id-keyed tables plus the key
      order in which their buttons are rendered. */
  datatype Defs = Defs(contracts: map<string, ContractDef>, contractOrder: seq<string>,
                       items: map<string, StoreItemDef>, itemOrder: seq<string>)

  /** What the definitions endpoint serves: the server's own tables. The JSON
      encoder sorts object keys, and the client renders in the parsed order, so
      the buttons appear in alphabetical key order, not declaration order. */
  function Definitions(): (d: Defs)
    ensures d.contracts == Contracts && d.items == StoreItems
    ensures d.contractOrder == [BuildWebsite, DataAnalysis, FixBug]
    ensures d.itemOrder == [Coffee, DevJunior, Chair, FasterPc]
  {
    Defs(Contracts, [BuildWebsite, DataAnalysis, FixBug], StoreItems, [Coffee, DevJunior, Chair, FasterPc])
  }

  lemma ContractRewardsBounded(id: string)
    requires id in Contracts
    ensures Contracts[id].xpReward <= 100
    ensures Contracts[id].energyCost > 0
  {
  }

  function Pow(b: nat, n: nat): (r: nat)
    ensures b > 0 ==> r > 0
    ensures b >= 1 ==> r >= 1
  {
    if n == 0 then 1 else b * Pow(b, n - 1)
  }

  /** The price of the `n`-th hire of an item whose base cost is `base`:
      floor(base * 1.15^n), with 1.15^n taken exactly as 115^n / 100^n.
      The game server (`math.pow`) and the page script (`Math.pow`) both
      compute 1.15^n in binary floating point and truncate, so their prices
      can differ from this one, by more than one unit for large n, and the two
      libraries need not round alike, so they can also differ from each other. */
  function Price(base: nat, n: nat): nat
  {
    base * Pow(115, n) / Pow(100, n)
  }

  lemma MulMono(x: nat, y: nat, d: nat)
    requires x <= y
    ensures x * d <= y * d
  {
  }

  lemma DivLowerBound(a: nat, d: nat, q: nat)
    requires d > 0
    requires q * d <= a
    ensures q <= a / d
  {
    var k := a / d;
    assert a == k * d + a % d && a % d < d;
    if k + 1 <= q {
      MulMono(k + 1, q, d);
      assert false;
    }
  }

  /** The next hire never costs less than the previous one. */
  lemma PriceNonDecreasing(base: nat, n: nat)
    ensures Price(base, n) <= Price(base, n + 1)
  {
    var x := base * Pow(115, n);
    var y := Pow(100, n);
    var q := x / y;
    assert q * y <= x;
    assert base * Pow(115, n + 1) == 115 * x;
    assert Pow(100, n + 1) == 100 * y;
    assert q * (100 * y) <= 115 * x;
    DivLowerBound(115 * x, 100 * y, q);
  }

  /** Every hire costs at least the base cost. */
  lemma {:induction false} PriceAtLeastBase(base: nat, n: nat)
    ensures base <= Price(base, n)
  {
    if n > 0 {
      PriceAtLeastBase(base, n - 1);
      PriceNonDecreasing(base, n - 1);
    }
  }

  /** Known values: the first hire costs the base; base 10 after three hires is
      floor(10 * 1.520875) = 15; the junior developer costs 500, 575, 661. */
  lemma PriceSamples()
    ensures Price(10, 0) == 10 && Price(10, 3) == 15
    ensures Price(500, 0) == 500 && Price(500, 1) == 575 && Price(500, 2) == 661
  {
    assert Pow(115, 3) == 1520875;
    assert Pow(100, 3) == 1000000;
  }

  /** The player snapshot the server returns (the state dictionary). */
  datatype StateView = StateView(money: int, energy: int, maxEnergy: int, xp: int, level: int,
                                 xpToNextLevel: int, upgrades: seq<string>,
                                 juniorDevs: nat, passiveIncome: int)

  /** A mutating request's reply: the new snapshot with status 200, or an error message with status 400. */
  datatype Reply = Accepted(newState: StateView) | Rejected(error: string)
}

=== FILE: server.dfy ===
/**
 The server's game rules: a single player record and the requests that change
 it. A contract or purchase naming an unknown id is refused before anything
 else. Otherwise it first credits the passive income earned since the record
 was last touched, then checks its guard, and either rejects with an error
 message (keeping only that credit) or applies a few integer updates. A reset
 overwrites the record without crediting anything.
 Persistence is the identity here: the `record` of an outcome is what the
 request leaves committed.
 */
module Server {
  import opened Game

  datatype Player = Player(money: int, energy: int, maxEnergy: int, xp: int, level: int,
                           upgrades: seq<string>, juniorDevs: nat, lastUpdated: Option<int>)

  /** The record as left by a request, and the request's reply. */
  datatype Outcome = Outcome(record: Player, reply: Reply)

  /** Timestamps are microseconds, the clock's resolution. */
  const MicrosPerSecond: nat := 1000000
  /** Money per second earned by each junior developer. */
  const IncomePerDev: nat := 10
  /** Experience needed to leave level L is L times this. */
  const XpPerLevel: nat := 100
  const LevelUpMaxEnergy: nat := 10
  const ChairMaxEnergy: nat := 25

  const UnknownContract := "Contrato no existe"
  const NoEnergy := "No tienes suficiente energía"
  const UnknownItem := "Item no existe"
  const NoMoney := "No tienes suficiente dinero"
  const AlreadyOwned := "Ya tienes este item"

  /** The record a first visit creates: the column defaults, stamped with the clock. */
  function Fresh(now: int): Player {
    Player(100, 100, 100, 0, 1, [], 0, Some(now))
  }

  predicate NoDuplicates(s: seq<string>) {
    forall i, j :: 0 <= i < j < |s| ==> s[i] != s[j]
  }

  /** What every request keeps true of the record. */
  predicate Inv(p: Player) {
    && 0 <= p.energy <= p.maxEnergy
    && p.maxEnergy >= 100
    && p.level >= 1
    && 0 <= p.xp < p.level * XpPerLevel
    && p.money >= 0
    && NoDuplicates(p.upgrades)
    && forall u :: u in p.upgrades ==> IsUpgrade(u)
  }

  lemma FreshSatisfiesInv(now: int)
    ensures Inv(Fresh(now))
  {
  }

  function Abs(a: int): nat {
    if a >= 0 then a else -a
  }

  /** Python's int() of a quotient: truncation toward zero. The magnitude is the
      magnitude's quotient rounded down, and the sign is the numerator's. */
  function TruncDiv(a: int, d: nat): (r: int)
    requires d > 0
    ensures Abs(r) == Abs(a) / d
    ensures a >= 0 ==> r >= 0
    ensures a < 0 ==> r <= 0
  {
    if a >= 0 then a / d else -((-a) / d)
  }

  /** Microseconds since the record was last touched; a record never stamped counts as touched now. */
  function Elapsed(p: Player, now: int): int {
    match p.lastUpdated
    case Some(t) => now - t
    case None => 0
  }

  /** Credits the income of the junior developers since the last touch and stamps the record.
      The game server multiplies float seconds by the rate and truncates; here
      the elapsed time is exact microseconds and the truncation is explicit. */
  function Accrue(p: Player, now: int): (r: Player)
    ensures r == p.(money := r.money, lastUpdated := Some(now))
    ensures r.money >= p.money
    ensures Elapsed(p, now) >= 0 ==>
      r.money == p.money + Elapsed(p, now) * (p.juniorDevs * IncomePerDev) / MicrosPerSecond
    ensures Elapsed(p, now) < 0 ==> r.money == p.money
  {
    var earned := TruncDiv(Elapsed(p, now) * (p.juniorDevs * IncomePerDev), MicrosPerSecond);
    p.(money := if earned > 0 then p.money + earned else p.money, lastUpdated := Some(now))
  }

  /** Crediting twice at the same instant credits once. */
  lemma AccrueSameInstant(p: Player, now: int)
    ensures Accrue(Accrue(p, now), now) == Accrue(p, now)
  {
  }

  /** The state dictionary: the record plus its derived fields. */
  function View(p: Player): StateView {
    StateView(p.money, p.energy, p.maxEnergy, p.xp, p.level, p.level * XpPerLevel,
              p.upgrades, p.juniorDevs, p.juniorDevs * IncomePerDev)
  }

  /** The reported derived fields mean what the client displays them as: the
      experience still fits below the next-level threshold, and the reported
      income is exactly what one more second of accrual credits. */
  lemma ViewDerivedFields(p: Player, t: int)
    requires Inv(p) && p.lastUpdated == Some(t)
    ensures View(p).xpToNextLevel == p.level * XpPerLevel
    ensures 0 <= View(p).xp < View(p).xpToNextLevel
    ensures Accrue(p, t + MicrosPerSecond).money == p.money + View(p).passiveIncome
    ensures Accrue(p, t).money == p.money
  {
  }

  /** A successful request answers with the state dictionary, which credits income once more. */
  function Respond(p: Player, now: int): (r: Outcome)
    ensures p.lastUpdated == Some(now) ==> r.record == p
    ensures r.reply == Accepted(View(r.record))
  {
    var s := Accrue(p, now);
    Outcome(s, Accepted(View(s)))
  }

  /** The money a contract pays: half as much again, truncated, with the faster PC. */
  function Payout(upgrades: seq<string>, reward: nat): nat {
    if FasterPc in upgrades then reward * 3 / 2 else reward
  }

  /** At most one level per contract: crossing the threshold spends it and refills a larger energy bar. */
  function LevelUp(w: Player): Player {
    var needed := w.level * XpPerLevel;
    if w.xp >= needed then
      w.(level := w.level + 1, xp := w.xp - needed,
         maxEnergy := w.maxEnergy + LevelUpMaxEnergy, energy := w.maxEnergy + LevelUpMaxEnergy)
    else w
  }

  function Work(q: Player, c: ContractDef): Player {
    LevelUp(q.(energy := q.energy - c.energyCost,
               money := q.money + Payout(q.upgrades, c.moneyReward),
               xp := q.xp + c.xpReward))
  }

  /** POST do_contract. */
  function DoContract(p: Player, id: string, now: int): (r: Outcome)
    ensures id !in Contracts ==> r == Outcome(p, Rejected(UnknownContract))
    ensures id in Contracts ==> (r.reply.Accepted? <==> p.energy >= Contracts[id].energyCost)
    ensures id in Contracts && p.energy < Contracts[id].energyCost ==>
      r == Outcome(Accrue(p, now), Rejected(NoEnergy))
    ensures r.reply.Rejected? ==> r.record == p || r.record == Accrue(p, now)
    ensures r.reply.Accepted? ==> r.reply.newState == View(r.record)
    ensures Inv(p) ==> Inv(r.record)
  {
    if id !in Contracts then Outcome(p, Rejected(UnknownContract))
    else
      var c := Contracts[id];
      var q := Accrue(p, now);
      if q.energy < c.energyCost then Outcome(q, Rejected(NoEnergy))
      else
        ContractRewardsBounded(id);
        Respond(Work(q, c), now)
  }

  /** A successful contract: energy pays the cost, money and experience are
      credited, and the level rises by one exactly when the experience reaches
      the threshold, which then refills energy to the raised maximum. */
  lemma ContractEffect(p: Player, id: string, now: int)
    requires id in Contracts && p.energy >= Contracts[id].energyCost
    ensures var r := DoContract(p, id, now).record;
            var c := Contracts[id];
            var gained := p.xp + c.xpReward;
            && r.money == Accrue(p, now).money + (if FasterPc in p.upgrades then c.moneyReward * 3 / 2 else c.moneyReward)
            && r.upgrades == p.upgrades && r.juniorDevs == p.juniorDevs && r.lastUpdated == Some(now)
            && (gained < p.level * XpPerLevel ==>
                  r.level == p.level && r.xp == gained && r.maxEnergy == p.maxEnergy
                  && r.energy == p.energy - c.energyCost)
            && (gained >= p.level * XpPerLevel ==>
                  r.level == p.level + 1 && r.xp == gained - p.level * XpPerLevel
                  && r.maxEnergy == p.maxEnergy + 10 && r.energy == r.maxEnergy)
  {
  }

  /** The reported `xp_to_next_level` is the threshold a contract levels up at:
      an accepted contract raises the level exactly when the experience it
      brings reaches the value the last snapshot showed. */
  lemma LevelUpAtReportedThreshold(p: Player, id: string, now: int)
    requires id in Contracts && p.energy >= Contracts[id].energyCost
    ensures var r := DoContract(p, id, now);
            && r.reply.Accepted?
            && (r.record.level == p.level + 1 <==> p.xp + Contracts[id].xpReward >= View(p).xpToNextLevel)
            && (r.record.level == p.level <==> p.xp + Contracts[id].xpReward < View(p).xpToNextLevel)
  {
  }

  /** POST buy_item. */
  function BuyItem(p: Player, id: string, now: int): (r: Outcome)
    ensures id !in StoreItems ==> r == Outcome(p, Rejected(UnknownItem))
    ensures id in StoreItems && r.reply.Rejected? ==> r.record == Accrue(p, now)
    ensures r.reply.Accepted? ==> r.reply.newState == View(r.record)
    ensures r.record.upgrades == p.upgrades
            || (IsUpgrade(id) && id !in p.upgrades && r.record.upgrades == p.upgrades + [id])
    ensures Inv(p) ==> Inv(r.record)
  {
    if id !in StoreItems then Outcome(p, Rejected(UnknownItem))
    else
      var item := StoreItems[id];
      var q := Accrue(p, now);
      if id == Coffee then
        var cost := item.cost.value;
        if q.money < cost then Outcome(q, Rejected(NoMoney))
        else Respond(q.(money := q.money - cost, energy := q.maxEnergy), now)
      else if id == Chair || id == FasterPc then
        var cost := item.cost.value;
        if q.money < cost then Outcome(q, Rejected(NoMoney))
        else if id !in q.upgrades then
          Respond(q.(money := q.money - cost, upgrades := q.upgrades + [id],
                     maxEnergy := if id == Chair then q.maxEnergy + ChairMaxEnergy else q.maxEnergy), now)
        else Outcome(q, Rejected(AlreadyOwned))
      else
        assert id == DevJunior;
        var cost := Price(item.baseCost.value, q.juniorDevs);
        if q.money < cost then Outcome(q, Rejected(NoMoney))
        else Respond(q.(money := q.money - cost, juniorDevs := q.juniorDevs + 1), now)
  }

  /** When a purchase goes through: the money after crediting income covers the
      price, and a one-time upgrade is not owned yet. Note the money check comes
      first, so an owned upgrade the player cannot afford is refused for money. */
  lemma PurchaseDecision(p: Player, id: string, now: int)
    requires id in StoreItems
    ensures var r := BuyItem(p, id, now);
            var money := Accrue(p, now).money;
            && (id == Coffee ==> (r.reply.Accepted? <==> money >= 25))
            && (IsUpgrade(id) ==>
                  (r.reply.Accepted? <==> money >= StoreItems[id].cost.value && id !in p.upgrades))
            && (IsUpgrade(id) && money >= StoreItems[id].cost.value && id in p.upgrades ==>
                  r.reply == Rejected(AlreadyOwned) && r.record.money == money)
            && (IsUpgrade(id) && money < StoreItems[id].cost.value ==> r.reply == Rejected(NoMoney))
            && (id == DevJunior ==> (r.reply.Accepted? <==> money >= Price(500, p.juniorDevs)))
            && ((id == Coffee || id == DevJunior) && r.reply.Rejected? ==> r.reply == Rejected(NoMoney))
  {
  }

  /** What a purchase that goes through changes, and that it changes nothing else. */
  lemma PurchaseEffect(p: Player, id: string, now: int)
    requires BuyItem(p, id, now).reply.Accepted?
    ensures var r := BuyItem(p, id, now).record;
            var q := Accrue(p, now);
            && (id == Coffee ==> r == q.(money := q.money - 25, energy := q.maxEnergy))
            && (id == Chair ==>
                  r == q.(money := q.money - 300, upgrades := q.upgrades + [Chair], maxEnergy := q.maxEnergy + 25))
            && (id == FasterPc ==> r == q.(money := q.money - 1000, upgrades := q.upgrades + [FasterPc]))
            && (id == DevJunior ==>
                  r == q.(money := q.money - Price(500, q.juniorDevs), juniorDevs := q.juniorDevs + 1))
  {
  }

  /** POST reset_game: the record becomes a first visit's record, whatever it held. */
  function ResetGame(p: Player, now: int): (r: Outcome)
    ensures r.record == Fresh(now)
    ensures r.reply.Accepted? && r.reply.newState.money == 100 && r.reply.newState.energy == 100
    ensures Inv(r.record)
  {
    var s := p.(money := 100, energy := 100, maxEnergy := 100, xp := 0, level := 1,
                upgrades := [], juniorDevs := 0, lastUpdated := Some(now));
    Respond(s, now)
  }

  /** GET get_game_state: credits income and reports the record. */
  function GetGameState(p: Player, now: int): (r: Outcome)
    ensures r.reply.Accepted? && r.reply.newState == View(r.record)
    ensures r.record == Accrue(p, now)
    ensures Inv(p) ==> Inv(r.record)
  {
    Respond(p, now)
  }
}
